=== FILE: README.md ===
# Fast-Track gate control and gate-events report, modelled in Dafny

This project models the client-side logic of two staff pages of the exeat (student leave) front end.

**The Fast-Track gate page** (`app/staff/gate-events/fast-track/page.tsx`) lets a gate operator build a batch of approved exeat requests and sign all of them out, or all of them in, with one request. Its session state is:
- the mode (`sign_out` / `sign_in`);
- the ordered queue of requests;
- the search query and its results;
- the eligible-list page, date filter, rows and paging metadata;
- the `isProcessing` flag.

Its handlers are add, remove, Clear All, Enter, a click on a list row, the mode switch with its confirmation, the debounce timer, execute, the date filter and paging.

**The gate-events report** (`app/staff/gate-events/page.tsx`) is a sortable, paged view with a CSV export link.

Files:
- `wrappers.dfy`: `Option`.
- `fast_track_queue.dfy` (module `FastTrackQueue`): the page's pure helpers. These are queue membership (`isInQueue`), the queue updates of `addToQueue` and `removeFromQueue`, the filter `performSearch` applies to server results, the row button, `getInitials` and the "Showing X to Y of Z" arithmetic.
- `fast_track_page.dfy` (module `FastTrackPage`): class `Session`. Each `useState` of the page is a field, and each handler, timer firing or network response is a method. Each method's frame is the set of fields it writes (`modifies this\`queue, …`), so every other field is unchanged. `Valid()` is the session invariant: queue ids are pairwise distinct and the list page is at least 1. There are also four scenario methods for the debounce, double-click and date-filter scenarios.
- `gate_events.dfy` (module `GateEvents`): the functions below and class `ReportControls` (page, per page, search, `checked`, `sortBy`, `order`):
  - the column-to-DB-key switch;
  - the sort toggle;
  - the per-page clamp;
  - `trim` and the `student_name` column;
  - the export parameters;
  - the pagination default.

React effects are modelled as two flags:
- `searchTimerArmed`: a 300 ms debounce timer is pending. The debounce effect depends on `searchQuery` and on `performSearch`. `performSearch` is rebuilt whenever `queue` or `activeTab` changes. So every change of the query and every queue update replaces the pending timer.
- `listFetchDue`: the eligible-list effect will fetch again. That effect depends on mode, page and date. A successful execute also sets it.

The timer firing and the responses are their own methods:
- `FireSearchTimer`;
- `SettleSearch`;
- `BeginListFetch` / `FinishListFetch`;
- `ClickExecute` / `FinishProcessing`.

Responses and the operator's answer to `confirm()` are parameters.

## Behaviour worth knowing

- **Queue cap.** The cap of 10 is enforced only by the eligible-list row button (`disabled` at page.tsx:408). `addToQueue` does not check it, so adding from the search panel or with Enter can grow the queue past 10 (`FastTrackQueue.AddIgnoresCap`).
- **Clearing the date.** The date "Clear" button keeps the current list page. Only picking a date returns to page 1.
- **Short queries.** A query shorter than 2 characters clears the results when the 300 ms timer fires, not at once. As a result, typing "A", pausing, then "B" sends one search, for "AB". `DebounceTwoWindows` shows the two-search case with "AB" then "ABC".
- **Execute success.** A 2xx response whose JSON body has a `processed` list empties the whole queue, whichever ids that list names. The queue is not reconciled against `processed`. Requests added while the request was in flight are cleared as well. Any other 2xx (a body that is not JSON, or one without `processed`) throws inside the handler. It shows the error toast and keeps the queue, so the model treats it as a `Rejected` outcome carrying the thrown message.
- **Switching to the current mode.** `handleTabChange` has no check for the mode already active. The Tabs component calls it only when the value changes. `Session.HandleTabChange` models the handler as written.
- **Actual Returned Date column.** A click on this header sorts by `security_signouts.signout_time`, the same as "Checked Out", because the switch has no case for it.

## Model

| member | source | states |
|---|---|---|
| FastTrackQueue.InQueue | app/staff/gate-events/fast-track/page.tsx:204-205 | true exactly when some queue entry carries the id |
| FastTrackQueue.Ids | app/staff/gate-events/fast-track/page.tsx:176 | the submitted ids are the queue's ids, one per entry, in queue order |
| FastTrackQueue.Enqueue | app/staff/gate-events/fast-track/page.tsx:156-158 | after an add the id is queued; the queue grows by one exactly when the id was absent; earlier entries stay as a prefix; the new request is last; distinct ids stay distinct |
| FastTrackQueue.EnqueueIdempotent | app/staff/gate-events/fast-track/page.tsx:157 | adding the same request twice (a double click) equals adding it once |
| FastTrackQueue.EnqueueAllDistinct | app/staff/gate-events/fast-track/page.tsx:156-158 | for any run of adds: ids stay pairwise distinct, the queue grows by at most one per add, the old queue remains a prefix, and every added id ends up queued |
| FastTrackQueue.Without | app/staff/gate-events/fast-track/page.tsx:164-166 | after removal no entry has the id; every other entry survives; an absent id leaves the queue unchanged; the queue never grows |
| FastTrackQueue.WithoutKeepsDistinct | app/staff/gate-events/fast-track/page.tsx:164-166 | removal keeps queue ids pairwise distinct |
| FastTrackQueue.WithoutDistributes | app/staff/gate-events/fast-track/page.tsx:165 | removal distributes over concatenation, so survivors keep their relative order |
| FastTrackQueue.WithoutUndoesEnqueue | app/staff/gate-events/fast-track/page.tsx:156-166 | removing a request just added (to a queue that lacked it) restores the queue |
| FastTrackQueue.FilterQueued | app/staff/gate-events/fast-track/page.tsx:121-124 | the shown results are exactly the server results whose id is not queued; none of them is queued |
| FastTrackQueue.FilterQueuedDistributes | app/staff/gate-events/fast-track/page.tsx:121-124 | the filter distributes over concatenation, so server order is kept |
| FastTrackQueue.FilterQueuedEmptyQueue | app/staff/gate-events/fast-track/page.tsx:121-124 | with an empty queue the results are the server's, unchanged |
| FastTrackQueue.FilterQueuedSingle | app/staff/gate-events/fast-track/page.tsx:121-124 | filtering against a one-entry queue equals removing that entry's id (the filter agrees with `removeFromQueue`'s filter) |
| FastTrackQueue.FilteredResultAppends | app/staff/gate-events/fast-track/page.tsx:121-124 | adding any shown result appends it to the queue; it is never a duplicate no-op |
| FastTrackQueue.RowEnabled | app/staff/gate-events/fast-track/page.tsx:408 | a queued row's button is always enabled, so it can be removed; below 10 entries every button is enabled; a disabled button means 10 or more entries, none with that id |
| FastTrackQueue.RowClickQueue | app/staff/gate-events/fast-track/page.tsx:405-408 | a disabled button leaves the queue as it was; a click on a queued row gives `Without` of the queue, so the other entries stay in order; any other row is appended to the unchanged queue; the row is queued afterwards iff it was not queued and fewer than 10 were; at most 10 stays at most 10; distinct ids stay distinct |
| FastTrackQueue.AddIgnoresCap | app/staff/gate-events/fast-track/page.tsx:156-162 | at 10 entries the row button refuses a new request, but `addToQueue` accepts it and the queue reaches 11 |
| FastTrackQueue.UpperAscii | app/staff/gate-events/fast-track/page.tsx:202 | `toUpperCase` on one character: a lower-case ASCII letter moves to its capital, any other character is kept, and the result is never lower-case |
| FastTrackQueue.ToUpperCase | app/staff/gate-events/fast-track/page.tsx:202 | `toUpperCase` on a string: the same length, with `UpperAscii` applied at every position |
| FastTrackQueue.CharAt0 | app/staff/gate-events/fast-track/page.tsx:202 | `charAt(0)`: "" for an empty name, otherwise exactly its first character |
| FastTrackQueue.GetInitials | app/staff/gate-events/fast-track/page.tsx:202 | one character per non-empty name: the upper-cased first letters, in first-name/last-name order, with no lower-case ASCII letter |
| FastTrackQueue.GetInitialsIgnoresCase | app/staff/gate-events/fast-track/page.tsx:202 | initials do not depend on the letter case of the names |
| FastTrackQueue.ShowingRange | app/staff/gate-events/fast-track/page.tsx:424 | the total is the meta total or 0; the upper bound never exceeds the total; on a page that starts within the total, at most 10 rows are counted; on the last page the upper bound is the total; on a full page it is exactly `listPage * 10` |
| FastTrackPage.NoticeFor | app/staff/gate-events/fast-track/page.tsx:179-196 | success reports the length of `processed`; an error reports its message, or "Failed to process." when the message is empty |
| FastTrackPage.Session.constructor | app/staff/gate-events/fast-track/page.tsx:59-75 | the initial state: sign-out mode, empty queue, query and results, page 1, no date, not processing; both effects are pending |
| FastTrackPage.Session.ChangeQuery | app/staff/gate-events/fast-track/page.tsx:248 | the query is set; a changed query replaces the pending debounce timer |
| FastTrackPage.Session.FireSearchTimer | app/staff/gate-events/fast-track/page.tsx:131-140 | a query of at least 2 characters dispatches one search for exactly that query, mode and current queue; a shorter one dispatches nothing and empties the results |
| FastTrackPage.Session.SettleSearch | app/staff/gate-events/fast-track/page.tsx:112-128 | a successful response sets the results to the server results minus the ids queued at dispatch; a failed one leaves them |
| FastTrackPage.Session.AddToQueue | app/staff/gate-events/fast-track/page.tsx:156-162 | the queue becomes `Enqueue` of the old one; a new request also empties query and results; a duplicate changes nothing; ids stay distinct |
| FastTrackPage.Session.RemoveFromQueue | app/staff/gate-events/fast-track/page.tsx:164-166 | the queue becomes `Without` of the old one; nothing else but the timer changes |
| FastTrackPage.Session.ClearAll | app/staff/gate-events/fast-track/page.tsx:286-290 | the queue is empty afterwards |
| FastTrackPage.Session.PressEnter | app/staff/gate-events/fast-track/page.tsx:249-251 | with results, the queue becomes `Enqueue` of the first result; if that result was not queued, query and results are emptied and the timer re-armed, and if it was, they are unchanged; with no results, nothing changes |
| FastTrackPage.Session.ClickRow | app/staff/gate-events/fast-track/page.tsx:403-408 | the queue becomes `RowClickQueue` of the old one; a disabled button changes nothing else; removing a queued row keeps query and results and re-arms the timer; adding a row empties query and results and re-arms the timer; at most 10 stays at most 10 |
| FastTrackPage.Session.HandleTabChange | app/staff/gate-events/fast-track/page.tsx:142-154 | a non-empty queue with a declined confirmation changes no field; otherwise the mode is set and queue, query, results, page (1) and date ('') are reset |
| FastTrackPage.ExecuteEnabled | app/staff/gate-events/fast-track/page.tsx:321 | Execute is enabled only with at least one id to submit and no request in flight, and whenever both hold |
| FastTrackPage.Session.ClickExecute | app/staff/gate-events/fast-track/page.tsx:319-322 | with an empty queue or a request in flight, nothing is submitted; otherwise the queue's ids are submitted in order and `isProcessing` is set |
| FastTrackPage.Session.ProcessQueue | app/staff/gate-events/fast-track/page.tsx:168-177 | an empty queue submits nothing and changes nothing; otherwise the ids in queue order are submitted and `isProcessing` becomes true |
| FastTrackPage.Session.FinishProcessing | app/staff/gate-events/fast-track/page.tsx:178-199 | a 2xx response whose JSON body has a `processed` list empties the queue, whichever ids it names, and schedules a list refresh; any other outcome, including a 2xx body that throws, leaves the queue unchanged; both end with `isProcessing` false |
| FastTrackPage.Session.BeginListFetch | app/staff/gate-events/fast-track/page.tsx:79-89 | the list request carries the current mode and page, and the date only when one is set |
| FastTrackPage.Session.FinishListFetch | app/staff/gate-events/fast-track/page.tsx:90-104 | a successful response replaces rows and meta; a failed one keeps them; loading ends |
| FastTrackPage.Session.ChangeFilterDate | app/staff/gate-events/fast-track/page.tsx:347-350 | picking a date sets the filter and returns to page 1 |
| FastTrackPage.Session.ClearFilterDate | app/staff/gate-events/fast-track/page.tsx:353-357 | Clear empties the date filter and keeps the page |
| FastTrackPage.Session.PrevEnabled | app/staff/gate-events/fast-track/page.tsx:431 | the previous-page button is disabled while loading and enabled from page 2 on; on a page of at least 1, enabled means page 2 or later |
| FastTrackPage.Session.NextEnabled | app/staff/gate-events/fast-track/page.tsx:441 | the next-page button is enabled only with meta, not loading, and one more page still at or below `last_page`; it is enabled whenever all of these hold |
| FastTrackPage.Session.PrevPage | app/staff/gate-events/fast-track/page.tsx:427-433 | disabled at page 1 or while loading; otherwise one page back; the page never drops below 1 |
| FastTrackPage.Session.NextPage | app/staff/gate-events/fast-track/page.tsx:437-443 | disabled without meta, at or past the last page, or while loading; otherwise one page on, and never past the reported last page |
| FastTrackPage.Session.Showing | app/staff/gate-events/fast-track/page.tsx:424 | in a valid session, the range text starts at 1 or later and its upper bound is within the total |
| FastTrackPage.DebounceOneWindow | app/staff/gate-events/fast-track/page.tsx:130-140 | typing "A", "AB", "ABC" in one quiet window sends exactly one search, for "ABC" |
| FastTrackPage.DebounceTwoWindows | app/staff/gate-events/fast-track/page.tsx:130-140 | "A", "AB", "ABC" each followed by a pause sends "AB" and "ABC"; the one-character query sends nothing |
| FastTrackPage.DoubleAdd | app/staff/gate-events/fast-track/page.tsx:156-158 | adding one request twice leaves it queued once |
| FastTrackPage.DateFilterThenClear | app/staff/gate-events/fast-track/page.tsx:343-357 | picking a date on page 3 returns to page 1; after Clear the next list request has page 1 and no date |
| GateEvents.CheckedValue | app/staff/gate-events/page.tsx:19 | the `checked` filter is one of `all`, `in`, `out` |
| GateEvents.CheckedValueInjective | app/staff/gate-events/page.tsx:19 | distinct filters have distinct wire values |
| GateEvents.DbKey | app/staff/gate-events/page.tsx:56-65 | every column key maps into the six DB sort keys; any key outside the switch maps to `security_signouts.signout_time` |
| GateEvents.DbKeyOfHeaderColumns | app/staff/gate-events/page.tsx:35-65 | each header column's fixed DB key; `actual_returned_date` sorts like `signout_time` |
| GateEvents.DbKeyIsBijection | app/staff/gate-events/page.tsx:56-65 | the six named columns map one-to-one onto the six DB keys |
| GateEvents.Flip | app/staff/gate-events/page.tsx:67 | flipping always changes the order, so with two orders `asc` becomes `desc` and `desc` becomes `asc` |
| GateEvents.SortAfterClick | app/staff/gate-events/page.tsx:66-71 | after a click the sort key is the column's DB key; a click on the current key flips the order; any other column sorts ascending |
| GateEvents.SortClickTwice | app/staff/gate-events/page.tsx:66-71 | two clicks on the sorting column restore the sort; two clicks on another column leave it sorted by that column, descending |
| GateEvents.ClampPerPage | app/staff/gate-events/page.tsx:110 | per page is always within [5,50]; NaN or 0 gives 20; values in range are kept; out-of-range values are clamped |
| GateEvents.ClampPerPageIdempotent | app/staff/gate-events/page.tsx:110 | entering the shown per-page value again changes nothing |
| GateEvents.ResolvePagination | app/staff/gate-events/page.tsx:33 | a missing pagination reads as current 1, last 1, total 0 with the current per page, and disables both Prev and Next |
| GateEvents.PrevEnabled | app/staff/gate-events/page.tsx:155 | Prev is enabled exactly when the server's current page is 2 or more; this is a statement about the server's page only, since the click moves the local page, which can lag it (`ReportControls.Prev`) |
| GateEvents.NextEnabled | app/staff/gate-events/page.tsx:156 | Next is enabled exactly before the server's last page, so one page on stays within it |
| GateEvents.PageBack | app/staff/gate-events/page.tsx:155 | Prev's page is one less, and never below 1 |
| GateEvents.IsJsWhitespace | app/staff/gate-events/page.tsx:47 | the characters `trim` removes include space, tab, line feed and carriage return, and exclude ASCII letters, digits and controls below tab |
| GateEvents.LeadingWhitespace | app/staff/gate-events/page.tsx:47 | the length of the longest white-space prefix: every character before it is white space and the next one, if any, is not |
| GateEvents.TrailingWhitespace | app/staff/gate-events/page.tsx:47 | the length of the longest white-space suffix: every character in it is white space and the one before it, if any, is not |
| GateEvents.TrimStart | app/staff/gate-events/page.tsx:47 | the suffix of the input after its leading white space, which does not start with white space |
| GateEvents.TrimEnd | app/staff/gate-events/page.tsx:47 | a prefix of the input followed only by white space, which does not end with white space |
| GateEvents.Trim | app/staff/gate-events/page.tsx:47 | `trim` yields the slice of the input that starts after the leading white space; everything after it is white space; the result neither starts nor ends with white space |
| GateEvents.TrimOfTrimmed | app/staff/gate-events/page.tsx:47 | a string with no white space at either end trims to itself |
| GateEvents.TrimIdempotent | app/staff/gate-events/page.tsx:47 | trimming twice equals trimming once |
| GateEvents.OrEmpty | app/staff/gate-events/page.tsx:47 | `?? ''`: a present name is kept and a missing one reads as "" |
| GateEvents.JoinedName | app/staff/gate-events/page.tsx:47 | the template string before `trim`: the first name (or ""), then one space, then the last name (or ""), character for character; two missing names give a lone space |
| GateEvents.TrimOfSpace | app/staff/gate-events/page.tsx:47 | a lone space, which is what two missing names join to, trims to the empty string |
| GateEvents.StudentName | app/staff/gate-events/page.tsx:47 | the name is the joined string `fname + " " + lname` (a missing name read as "") with its leading white space and its trailing white space removed, whatever white space the names carry; it has no white space at either end and is empty when both names are missing |
| GateEvents.StudentNameBoth | app/staff/gate-events/page.tsx:47 | two present, clean names are joined by exactly one space |
| GateEvents.StudentNameOne | app/staff/gate-events/page.tsx:47 | with one name missing, the other (clean) name is the whole column |
| GateEvents.ExportParams | app/staff/gate-events/page.tsx:25-29 | the export link's parameters: `checked` first; `search` added only when non-empty, and never empty |
| GateEvents.Lookup | app/staff/gate-events/page.tsx:27-28 | a parameter lookup is absent exactly when no parameter has that name; a present one is the value of the first parameter with that name, as `searchParams.get` returns |
| GateEvents.ExportParamsRoundTrip | app/staff/gate-events/page.tsx:25-29 | reading the link back gives `checked` always, and `search` exactly when it is non-empty |
| GateEvents.ReportControls.constructor | app/staff/gate-events/page.tsx:16-21 | page 1, 20 per page, empty search, `checked` `all`, sort by `security_signouts.signout_time`, descending |
| GateEvents.ReportControls.PaginationOf | app/staff/gate-events/page.tsx:33 | a missing response reads as total 0 with the current per page |
| GateEvents.ReportControls.ClickColumn | app/staff/gate-events/page.tsx:55-73 | the sort state becomes `SortAfterClick` of the old one; the key stays one of the six DB keys |
| GateEvents.ReportControls.ChangePerPage | app/staff/gate-events/page.tsx:110 | per page becomes the clamp of the input, so it stays within [5,50] |
| GateEvents.ReportControls.Apply | app/staff/gate-events/page.tsx:111 | Apply resets the page to 1 |
| GateEvents.ReportControls.Prev | app/staff/gate-events/page.tsx:155 | disabled when the shown current page is 1 or less; otherwise the page becomes `max(1, page-1)`; the page stays at least 1 |
| GateEvents.ReportControls.Next | app/staff/gate-events/page.tsx:156 | disabled when the shown current page is at or past the last page; otherwise one page on |
| GateEvents.ReportControls.ChangeSearch | app/staff/gate-events/page.tsx:92 | the search text is set |
| GateEvents.ReportControls.SelectChecked | app/staff/gate-events/page.tsx:93-95 | the `checked` filter is set |

## Left out

- Network calls (`fetch`, the RTK `useGetGateEventsQuery` hook, `refetch`), `localStorage` token reads and URLs built from `process.env`. Responses are method parameters instead.
- The order in which in-flight responses arrive. Each response is one event applied to the current state. A stale search response can still overwrite fresher results, as in the code.
- The eligible-list refresh after a successful execute. The code fetches with the mode, page and date of the render in which Execute was clicked. The model only marks a fetch as due (`listFetchDue`), and `BeginListFetch` reads the current values.
- `confirm()` is modelled as a boolean parameter. Toasts are modelled only as the returned `Notice`.
- Input focus and `setTimeout` focus, the `isSearching` spinner, and the "No eligible students found" and "No students found" messages.
- All JSX, CSS classes, avatars and base64 image URLs.
- The report's display-only text: "Showing n of total", "Page X of Y", hostel badges and the loading skeleton.
- Row date formatting with `toLocaleString` / `toLocaleDateString`. It depends on locale and time zone.
- `window.open` and the `URL` class. Only the export's query parameters are modelled.
- `Number()` on fractional, exponent or padded input in the per-page field. Inputs are an integer or NaN.
- `FastTrackQueue.GetInitials`: upper-casing covers ASCII letters only. Unicode case mapping, which can change a string's length, is not modelled.
- `FastTrackPage.Session.FireSearchTimer`: the 2-character minimum counts Unicode scalar values. JavaScript's `length` counts UTF-16 code units, so a query holding one astral character counts 2 there and 1 here.
- Reconciling the queue against `processed` after a partial success. The code does not do it.

Everything both pages do is covered above, in the table or in this list.

=== FILE: fast_track_page.dfy ===
/**
 * The Fast-Track gate page (app/staff/gate-events/fast-track/page.tsx) as a
 * session object. Every `useState` of the page is a field; every handler,
 * timer firing and network response is a method applied to the current
 * state. The two React effects are kept as flags: `searchTimerArmed` says a
 * 300 ms debounce timer is pending, `listFetchDue` says the eligible-list
 * effect will fetch again. Network responses and the operator's answer to
 * `confirm()` are method parameters.
 */
module FastTrackPage {
  import opened Wrappers
  import opened FastTrackQueue

  /** Queries shorter than this are not sent; the results are cleared instead. */
  const MinQueryLength := 2

  /**
   * A search the debounce timer dispatched: the query, the mode, and the
   * queue the `performSearch` closure captured (the one its filter uses).
   */
  datatype SearchRequest = SearchRequest(query: string, mode: Mode, queueAtDispatch: seq<ExeatRequest>)

  /** The eligible-list request: `type`, `page` and `date` only when a date is set. */
  datatype ListQuery = ListQuery(mode: Mode, page: int, date: Option<string>)

  /** A successful eligible-list response. */
  datatype ListResponse = ListResponse(items: seq<ExeatRequest>, meta: PaginationMeta)

  /**
   * How the execute request ended. `Processed` is a 2xx response whose JSON
   * body has a `processed` list. Everything else is `Rejected` with the
   * message the handler catches ("" when absent): a non-2xx body's
   * `message`, or the error thrown by a 2xx body that is not JSON or has no
   * `processed` list.
   */
  datatype ExecuteOutcome = Processed(processed: seq<int>) | Rejected(message: string)

  /** The toast shown when the execute request ends. */
  datatype Notice = SuccessNotice(processedCount: nat) | ErrorNotice(message: string)

  /** The execute button is disabled when `queue.length === 0 || isProcessing`. */
  function ExecuteEnabled(queue: seq<ExeatRequest>, isProcessing: bool): (b: bool)
    ensures b ==> |Ids(queue)| >= 1
    ensures b ==> !isProcessing
    ensures queue != [] && !isProcessing ==> b
  {
    |queue| != 0 && !isProcessing
  }

  /** The toast text for an execute outcome: the processed count, or the message with its fallback. */
  function NoticeFor(outcome: ExecuteOutcome): (n: Notice)
    ensures outcome.Processed? <==> n.SuccessNotice?
    ensures outcome.Processed? ==> n.processedCount == |outcome.processed|
    ensures outcome.Rejected? ==> n.message != ""
    ensures outcome.Rejected? && outcome.message != "" ==> n.message == outcome.message
    ensures outcome.Rejected? && outcome.message == "" ==> n.message == "Failed to process."
  {
    match outcome
    case Processed(processed) => SuccessNotice(|processed|)
    case Rejected(message) => ErrorNotice(if message == "" then "Failed to process." else message)
  }

  class Session {
    var mode: Mode
    var searchQuery: string
    var searchResults: seq<ExeatRequest>
    var listData: seq<ExeatRequest>
    var listMeta: Option<PaginationMeta>
    var listLoading: bool
    var listPage: int
    var filterDate: string
    var queue: seq<ExeatRequest>
    var isProcessing: bool
    var searchTimerArmed: bool
    var listFetchDue: bool

    /** The queue never holds two requests with one id; the list page never drops below 1. */
    ghost predicate Valid()
      reads this
    {
      DistinctIds(queue) && listPage >= 1
    }

    /** The state on mount; both effects run once after the first render. */
    constructor ()
      ensures Valid()
      ensures mode == SignOut && queue == [] && !isProcessing
      ensures searchQuery == "" && searchResults == []
      ensures listData == [] && listMeta == None && !listLoading
      ensures listPage == 1 && filterDate == ""
      ensures searchTimerArmed && listFetchDue
    {
      mode := SignOut;
      searchQuery := "";
      searchResults := [];
      listData := [];
      listMeta := None;
      listLoading := false;
      listPage := 1;
      filterDate := "";
      queue := [];
      isProcessing := false;
      searchTimerArmed := true;
      listFetchDue := true;
    }

    // -------------------------------------------------------------------------
    // Search and its debounce

    /** The search box's `onChange`: the query changes and the pending timer is replaced. */
    method ChangeQuery(query: string)
      requires Valid()
      modifies this`searchQuery, this`searchTimerArmed
      ensures Valid()
      ensures searchQuery == query
      ensures searchTimerArmed == (old(searchTimerArmed) || query != old(searchQuery))
    {
      if query != searchQuery {
        searchQuery := query;
        searchTimerArmed := true;
      }
    }

    /**
     * The 300 ms timer fires: a query of at least two characters dispatches
     * one search for exactly that query; a shorter one clears the results.
     */
    method FireSearchTimer() returns (dispatched: Option<SearchRequest>)
      requires Valid() && searchTimerArmed
      modifies this`searchTimerArmed, this`searchResults
      ensures Valid() && !searchTimerArmed
      ensures |searchQuery| >= MinQueryLength ==>
        dispatched == Some(SearchRequest(searchQuery, mode, queue)) && searchResults == old(searchResults)
      ensures |searchQuery| < MinQueryLength ==> dispatched == None && searchResults == []
    {
      searchTimerArmed := false;
      if |searchQuery| >= MinQueryLength {
        dispatched := Some(SearchRequest(searchQuery, mode, queue));
      } else {
        searchResults := [];
        dispatched := None;
      }
    }

    /**
     * A search response arrives: on success the results become the server's
     * results minus the ids queued when the search was dispatched; a failed
     * search leaves them alone.
     */
    method SettleSearch(request: SearchRequest, response: Option<seq<ExeatRequest>>)
      requires Valid()
      modifies this`searchResults
      ensures Valid()
      ensures response.Some? ==> searchResults == FilterQueued(response.value, request.queueAtDispatch)
      ensures response.None? ==> searchResults == old(searchResults)
    {
      if response.Some? {
        searchResults := FilterQueued(response.value, request.queueAtDispatch);
      }
    }

    // -------------------------------------------------------------------------
    // The queue

    /**
     * `addToQueue`: a request whose id is queued changes nothing; any other
     * is appended and the search box and its results are emptied.
     */
    method AddToQueue(request: ExeatRequest)
      requires Valid()
      modifies this`queue, this`searchQuery, this`searchResults, this`searchTimerArmed
      ensures Valid()
      ensures queue == Enqueue(old(queue), request)
      ensures InQueue(old(queue), request.id) ==>
        searchQuery == old(searchQuery) && searchResults == old(searchResults) &&
        searchTimerArmed == old(searchTimerArmed)
      ensures !InQueue(old(queue), request.id) ==>
        searchQuery == "" && searchResults == [] && searchTimerArmed
    {
      if InQueue(queue, request.id) {
        return;
      }
      queue := Enqueue(queue, request);
      searchQuery := "";
      searchResults := [];
      searchTimerArmed := true;
    }

    /** `removeFromQueue(id)`: every entry with that id goes, the rest keep their order. */
    method RemoveFromQueue(id: int)
      requires Valid()
      modifies this`queue, this`searchTimerArmed
      ensures Valid()
      ensures queue == Without(old(queue), id)
      ensures searchTimerArmed
    {
      WithoutKeepsDistinct(queue, id);
      queue := Without(queue, id);
      searchTimerArmed := true;
    }

    /** "Clear All", shown only while the queue is non-empty, empties it. */
    method ClearAll()
      requires Valid()
      modifies this`queue, this`searchTimerArmed
      ensures Valid()
      ensures queue == []
      ensures searchTimerArmed == (old(searchTimerArmed) || old(queue) != [])
    {
      if queue != [] {
        queue := [];
        searchTimerArmed := true;
      }
    }

    /** Enter in the search box adds the first result, when there is one. */
    method PressEnter()
      requires Valid()
      modifies this`queue, this`searchQuery, this`searchResults, this`searchTimerArmed
      ensures Valid()
      ensures old(searchResults) == [] ==>
        queue == old(queue) && searchQuery == old(searchQuery) && searchResults == [] &&
        searchTimerArmed == old(searchTimerArmed)
      ensures old(searchResults) != [] ==> queue == Enqueue(old(queue), old(searchResults)[0])
      ensures old(searchResults) != [] && !InQueue(old(queue), old(searchResults)[0].id) ==>
        searchQuery == "" && searchResults == [] && searchTimerArmed
      ensures old(searchResults) != [] && InQueue(old(queue), old(searchResults)[0].id) ==>
        searchQuery == old(searchQuery) && searchResults == old(searchResults) &&
        searchTimerArmed == old(searchTimerArmed)
    {
      if |searchResults| > 0 {
        AddToQueue(searchResults[0]);
      }
    }

    /**
     * A click on an eligible-list row's button: ignored while it is disabled,
     * otherwise it removes a queued row and adds any other.
     */
    method ClickRow(request: ExeatRequest)
      requires Valid()
      modifies this`queue, this`searchQuery, this`searchResults, this`searchTimerArmed
      ensures Valid()
      ensures queue == RowClickQueue(old(queue), request)
      ensures |old(queue)| <= QueueCap ==> |queue| <= QueueCap
      ensures InQueue(queue, request.id) <==> !InQueue(old(queue), request.id) && |old(queue)| < QueueCap
      ensures !RowEnabled(old(queue), request.id) ==>
        searchQuery == old(searchQuery) && searchResults == old(searchResults) &&
        searchTimerArmed == old(searchTimerArmed)
      ensures RowEnabled(old(queue), request.id) && InQueue(old(queue), request.id) ==>
        searchQuery == old(searchQuery) && searchResults == old(searchResults) && searchTimerArmed
      ensures RowEnabled(old(queue), request.id) && !InQueue(old(queue), request.id) ==>
        searchQuery == "" && searchResults == [] && searchTimerArmed
    {
      if !RowEnabled(queue, request.id) {
        return;
      }
      if InQueue(queue, request.id) {
        RemoveFromQueue(request.id);
      } else {
        AddToQueue(request);
      }
    }

    // -------------------------------------------------------------------------
    // Mode switch

    /**
     * `handleTabChange`: with a non-empty queue a declined confirmation
     * changes nothing; otherwise the mode is set and queue, query, results,
     * list page and date filter are reset.
     */
    method HandleTabChange(newMode: Mode, confirmed: bool)
      requires Valid()
      modifies this`mode, this`queue, this`searchQuery, this`searchResults, this`listPage,
        this`filterDate, this`searchTimerArmed, this`listFetchDue
      ensures Valid()
      ensures old(queue) != [] && !confirmed ==>
        mode == old(mode) && queue == old(queue) && searchQuery == old(searchQuery) &&
        searchResults == old(searchResults) && listPage == old(listPage) &&
        filterDate == old(filterDate) && searchTimerArmed == old(searchTimerArmed) &&
        listFetchDue == old(listFetchDue)
      ensures old(queue) == [] || confirmed ==>
        mode == newMode && queue == [] && searchQuery == "" && searchResults == [] &&
        listPage == 1 && filterDate == "" && searchTimerArmed &&
        listFetchDue == (old(listFetchDue) || old(mode) != newMode || old(listPage) != 1 || old(filterDate) != "")
    {
      if |queue| > 0 && !confirmed {
        return;
      }
      var changed := mode != newMode || listPage != 1 || filterDate != "";
      mode := newMode;
      queue := [];
      searchQuery := "";
      searchResults := [];
      listPage := 1;
      filterDate := "";
      searchTimerArmed := true;
      listFetchDue := listFetchDue || changed;
    }

    // -------------------------------------------------------------------------
    // Execute

    /**
     * A click on Execute runs `processQueue` when the button is enabled: the
     * queue's ids are submitted in queue order and `isProcessing` is set.
     */
    method ClickExecute() returns (submitted: Option<seq<int>>)
      requires Valid()
      modifies this`isProcessing
      ensures Valid()
      ensures !ExecuteEnabled(queue, old(isProcessing)) ==> submitted == None && isProcessing == old(isProcessing)
      ensures ExecuteEnabled(queue, old(isProcessing)) ==> submitted == Some(Ids(queue)) && isProcessing
    {
      if !ExecuteEnabled(queue, isProcessing) {
        return None;
      }
      submitted := ProcessQueue();
    }

    /** `processQueue` up to its request: nothing on an empty queue, otherwise the ids in queue order. */
    method ProcessQueue() returns (submitted: Option<seq<int>>)
      requires Valid()
      modifies this`isProcessing
      ensures Valid()
      ensures queue == [] ==> submitted == None && isProcessing == old(isProcessing)
      ensures queue != [] ==> submitted == Some(Ids(queue)) && isProcessing
    {
      if |queue| == 0 {
        return None;
      }
      isProcessing := true;
      submitted := Some(Ids(queue));
    }

    /**
     * The execute request ends: a 2xx response whose JSON body has a
     * `processed` list empties the whole queue, whichever ids that list
     * names, and refreshes the list; any other outcome keeps the queue.
     * Either way `isProcessing` is cleared.
     */
    method FinishProcessing(outcome: ExecuteOutcome) returns (notice: Notice)
      requires Valid() && isProcessing
      modifies this`queue, this`isProcessing, this`searchTimerArmed, this`listFetchDue
      ensures Valid() && !isProcessing
      ensures notice == NoticeFor(outcome)
      ensures outcome.Processed? ==> queue == [] && searchTimerArmed && listFetchDue
      ensures outcome.Rejected? ==>
        queue == old(queue) && searchTimerArmed == old(searchTimerArmed) && listFetchDue == old(listFetchDue)
    {
      notice := NoticeFor(outcome);
      if outcome.Processed? {
        queue := [];
        searchTimerArmed := true;
        listFetchDue := true;
      }
      isProcessing := false;
    }

    // -------------------------------------------------------------------------
    // Eligible list: fetching, date filter and paging

    /** The list effect runs `fetchList`: the query for the current mode, page and date. */
    method BeginListFetch() returns (query: ListQuery)
      requires Valid()
      modifies this`listLoading, this`listFetchDue
      ensures Valid() && listLoading && !listFetchDue
      ensures query.mode == mode && query.page == listPage
      ensures query.date == if filterDate == "" then None else Some(filterDate)
    {
      listLoading := true;
      listFetchDue := false;
      query := ListQuery(mode, listPage, if filterDate == "" then None else Some(filterDate));
    }

    /** A list response arrives: a successful one replaces rows and meta; loading ends. */
    method FinishListFetch(response: Option<ListResponse>)
      requires Valid()
      modifies this`listData, this`listMeta, this`listLoading
      ensures Valid() && !listLoading
      ensures response.Some? ==> listData == response.value.items && listMeta == Some(response.value.meta)
      ensures response.None? ==> listData == old(listData) && listMeta == old(listMeta)
    {
      if response.Some? {
        listData := response.value.items;
        listMeta := Some(response.value.meta);
      }
      listLoading := false;
    }

    /** Picking a date (including emptying the native picker) sets the filter and returns to page 1. */
    method ChangeFilterDate(date: string)
      requires Valid()
      modifies this`filterDate, this`listPage, this`listFetchDue
      ensures Valid()
      ensures filterDate == date && listPage == 1
      ensures listFetchDue == (old(listFetchDue) || date != old(filterDate) || old(listPage) != 1)
    {
      var changed := date != filterDate || listPage != 1;
      filterDate := date;
      listPage := 1;
      listFetchDue := listFetchDue || changed;
    }

    /** The "Clear" button, shown only while a date is set, empties the filter and keeps the page. */
    method ClearFilterDate()
      requires Valid()
      modifies this`filterDate, this`listFetchDue
      ensures Valid()
      ensures filterDate == ""
      ensures listFetchDue == (old(listFetchDue) || old(filterDate) != "")
    {
      if filterDate != "" {
        filterDate := "";
        listFetchDue := true;
      }
    }

    /** The previous-page button is disabled when `listPage === 1 || listLoading`. */
    function PrevEnabled(): (b: bool)
      reads this
      ensures b ==> !listLoading
      ensures listPage >= 2 && !listLoading ==> b
      ensures listPage >= 1 && b ==> listPage >= 2
    {
      !(listPage == 1 || listLoading)
    }

    /** The next-page button is disabled when `!listMeta || listPage >= listMeta.last_page || listLoading`. */
    function NextEnabled(): (b: bool)
      reads this
      ensures b ==> !listLoading && listMeta.Some? && listPage + 1 <= listMeta.value.lastPage
      ensures listMeta.Some? && listPage < listMeta.value.lastPage && !listLoading ==> b
    {
      !(listMeta.None? || listPage >= listMeta.value.lastPage || listLoading)
    }

    /** Previous page: one page back when enabled; the page stays at least 1. */
    method PrevPage()
      requires Valid()
      modifies this`listPage, this`listFetchDue
      ensures Valid()
      ensures old(PrevEnabled()) ==> listPage == old(listPage) - 1 && listFetchDue
      ensures !old(PrevEnabled()) ==> listPage == old(listPage) && listFetchDue == old(listFetchDue)
    {
      if PrevEnabled() {
        listPage := listPage - 1;
        listFetchDue := true;
      }
    }

    /** Next page: one page on when enabled, never past the last page the server reported. */
    method NextPage()
      requires Valid()
      modifies this`listPage, this`listFetchDue
      ensures Valid()
      ensures old(NextEnabled()) ==> listPage == old(listPage) + 1 && listPage <= listMeta.value.lastPage && listFetchDue
      ensures !old(NextEnabled()) ==> listPage == old(listPage) && listFetchDue == old(listFetchDue)
    {
      if NextEnabled() {
        listPage := listPage + 1;
        listFetchDue := true;
      }
    }

    /** The "Showing X to Y of Z" line for the current page. */
    function Showing(): (r: Range)
      reads this
      requires Valid()
      ensures r.from >= 1 && r.to <= r.total
      ensures r == ShowingRange(listPage, listMeta)
    {
      ShowingRange(listPage, listMeta)
    }
  }

  // ---------------------------------------------------------------------------
  // Scenarios

  /** The searches a timer firing sent: none or one. */
  function AsList(d: Option<SearchRequest>): (r: seq<SearchRequest>)
    ensures |r| <= 1 && (d.Some? <==> |r| == 1)
    ensures d.Some? ==> r == [d.value]
  {
    if d.Some? then [d.value] else []
  }

  /** "A", "AB", "ABC" typed inside one quiet window: one search, for "ABC". */
  method DebounceOneWindow() returns (sent: seq<SearchRequest>)
    ensures sent == [SearchRequest("ABC", SignOut, [])]
  {
    var s := new Session();
    s.ChangeQuery("A");
    s.ChangeQuery("AB");
    s.ChangeQuery("ABC");
    var d := s.FireSearchTimer();
    sent := AsList(d);
  }

  /**
   * "AB", a pause, then "ABC": two searches, one per window. A one-character
   * query in a window sends nothing.
   */
  method DebounceTwoWindows() returns (sent: seq<SearchRequest>)
    ensures sent == [SearchRequest("AB", SignOut, []), SearchRequest("ABC", SignOut, [])]
  {
    var s := new Session();
    s.ChangeQuery("A");
    var d0 := s.FireSearchTimer();
    s.ChangeQuery("AB");
    var d1 := s.FireSearchTimer();
    s.ChangeQuery("ABC");
    var d2 := s.FireSearchTimer();
    sent := AsList(d0) + AsList(d1) + AsList(d2);
  }

  /** A double click on one search result queues it once. */
  method DoubleAdd(request: ExeatRequest) returns (queue: seq<ExeatRequest>)
    ensures queue == [request]
  {
    var s := new Session();
    s.AddToQueue(request);
    s.AddToQueue(request);
    queue := s.queue;
  }

  /**
   * Date "2024-05-01" picked on page 3, then cleared: the pick returns to
   * page 1, the clear keeps page 1 and the next fetch carries no date.
   */
  method DateFilterThenClear() returns (pageAfterPick: int, next: ListQuery)
    ensures pageAfterPick == 1
    ensures next == ListQuery(SignOut, 1, None)
  {
    var s := new Session();
    var first := s.BeginListFetch();
    s.FinishListFetch(Some(ListResponse([], PaginationMeta(1, 5, 50, 10))));
    s.NextPage();
    s.NextPage();
    s.ChangeFilterDate("2024-05-01");
    pageAfterPick := s.listPage;
    s.ClearFilterDate();
    next := s.BeginListFetch();
  }
}

=== FILE: fast_track_queue.dfy ===
/**
 * The pure helpers of the Fast-Track gate page
 * (app/staff/gate-events/fast-track/page.tsx): the exeat requests it
 * queues, queue membership (`isInQueue`), the queue updates made by
 * `addToQueue` and `removeFromQueue`, the filter `performSearch` applies to
 * server results, the eligible-list row button, avatar initials and the
 * "Showing X to Y of Z" range of the eligible list.
 */
module FastTrackQueue {
  import opened Wrappers

  /** The gate action the operator is batching. */
  datatype Mode = SignOut | SignIn

  datatype Student = Student(id: int, fname: string, lname: string, passport: Option<string>, matricNo: string)

  /** An approved leave record; only `id` takes part in queueing. */
  datatype ExeatRequest = ExeatRequest(
    id: int,
    student: Student,
    destination: string,
    status: string,
    actionType: Mode)

  /** Paging metadata the eligible-list endpoint returns. */
  datatype PaginationMeta = PaginationMeta(currentPage: int, lastPage: int, total: nat, perPage: int)

  /** The eligible-list "Add" button is disabled once this many requests are queued. */
  const QueueCap := 10

  /** Rows per eligible-list page assumed by the "Showing X to Y" text. */
  const ListPageSize := 10

  // ---------------------------------------------------------------------------
  // Queue membership and identity

  /** `queue.some(q => q.id === id)` */
  function InQueue(queue: seq<ExeatRequest>, id: int): (b: bool)
    ensures b <==> exists i :: 0 <= i < |queue| && queue[i].id == id
  {
    if queue == [] then false
    else
      assert forall i :: 1 <= i < |queue| ==> queue[i] == queue[1..][i - 1];
      queue[0].id == id || InQueue(queue[1..], id)
  }

  /** The request ids of a queue, in queue order: the body of the execute request. */
  function Ids(queue: seq<ExeatRequest>): (ids: seq<int>)
    ensures |ids| == |queue|
    ensures forall i :: 0 <= i < |queue| ==> ids[i] == queue[i].id
  {
    seq(|queue|, i requires 0 <= i < |queue| => queue[i].id)
  }

  /** No two queue entries share a request id. */
  predicate DistinctIds(queue: seq<ExeatRequest>)
  {
    forall i, j :: 0 <= i < j < |queue| ==> queue[i].id != queue[j].id
  }

  // ---------------------------------------------------------------------------
  // addToQueue

  /**
   * The queue after `addToQueue(request)`: left as it is when a request with
   * the same id is queued, otherwise the request appended at the end. The
   * cap is not consulted.
   */
  function Enqueue(queue: seq<ExeatRequest>, request: ExeatRequest): (r: seq<ExeatRequest>)
    ensures InQueue(r, request.id)
    ensures |r| == if InQueue(queue, request.id) then |queue| else |queue| + 1
    ensures r[..|queue|] == queue
    ensures |r| > |queue| ==> r[|queue|] == request
    ensures DistinctIds(queue) ==> DistinctIds(r)
  {
    if InQueue(queue, request.id) then queue
    else
      assert (queue + [request])[|queue|] == request;
      queue + [request]
  }

  /** Adding the same request twice (a double click) queues it once. */
  lemma EnqueueIdempotent(queue: seq<ExeatRequest>, request: ExeatRequest)
    ensures Enqueue(Enqueue(queue, request), request) == Enqueue(queue, request)
  {
  }

  /** The queue built by a run of `addToQueue` calls. */
  function EnqueueAll(queue: seq<ExeatRequest>, requests: seq<ExeatRequest>): seq<ExeatRequest>
    decreases |requests|
  {
    if requests == [] then queue
    else EnqueueAll(Enqueue(queue, requests[0]), requests[1..])
  }

  /**
   * Whatever run of adds is made, starting from a queue without duplicates,
   * the queue has no duplicate ids, keeps its earlier entries as a prefix
   * and holds every added id.
   */
  lemma {:induction false} EnqueueAllDistinct(queue: seq<ExeatRequest>, requests: seq<ExeatRequest>)
    requires DistinctIds(queue)
    ensures DistinctIds(EnqueueAll(queue, requests))
    ensures |queue| <= |EnqueueAll(queue, requests)| <= |queue| + |requests|
    ensures EnqueueAll(queue, requests)[..|queue|] == queue
    ensures forall k :: 0 <= k < |requests| ==> InQueue(EnqueueAll(queue, requests), requests[k].id)
    decreases |requests|
  {
    if requests != [] {
      var next := Enqueue(queue, requests[0]);
      EnqueueAllDistinct(next, requests[1..]);
      var all := EnqueueAll(next, requests[1..]);
      assert all[..|queue|] == all[..|next|][..|queue|];
      forall k | 0 <= k < |requests|
        ensures InQueue(all, requests[k].id)
      {
        if k == 0 {
          var i :| 0 <= i < |next| && next[i].id == requests[0].id;
          assert all[i] == all[..|next|][i];
        } else {
          assert requests[k] == requests[1..][k - 1];
        }
      }
    }
  }

  // ---------------------------------------------------------------------------
  // removeFromQueue

  /** `queue.filter(item => item.id !== id)` */
  function Without(queue: seq<ExeatRequest>, id: int): (r: seq<ExeatRequest>)
    ensures forall x :: x in r <==> x in queue && x.id != id
    ensures !InQueue(r, id)
    ensures !InQueue(queue, id) ==> r == queue
    ensures |r| <= |queue|
  {
    if queue == [] then []
    else
      var rest := Without(queue[1..], id);
      if queue[0].id == id then rest else [queue[0]] + rest
  }

  /** Removal keeps queue ids pairwise distinct. */
  lemma {:induction false} WithoutKeepsDistinct(queue: seq<ExeatRequest>, id: int)
    ensures DistinctIds(queue) ==> DistinctIds(Without(queue, id))
  {
    if queue != [] && DistinctIds(queue) {
      var tail := queue[1..];
      DistinctTail(queue);
      WithoutKeepsDistinct(tail, id);
      if queue[0].id != id {
        DistinctCons(queue[0], Without(tail, id));
      }
    }
  }

  /** Dropping the head keeps ids distinct, and the head's id does not recur. */
  lemma DistinctTail(queue: seq<ExeatRequest>)
    requires queue != [] && DistinctIds(queue)
    ensures DistinctIds(queue[1..])
    ensures forall x :: x in queue[1..] ==> x.id != queue[0].id
  {
  }

  /** A request whose id is not queued can head a queue without duplicates. */
  lemma DistinctCons(head: ExeatRequest, rest: seq<ExeatRequest>)
    requires DistinctIds(rest) && !InQueue(rest, head.id)
    ensures DistinctIds([head] + rest)
  {
    var r := [head] + rest;
    forall i, j | 0 <= i < j < |r| ensures r[i].id != r[j].id {
      assert r[j] == rest[j - 1];
      if i > 0 {
        assert r[i] == rest[i - 1];
      }
    }
  }

  /** Removal keeps the surviving entries in their original relative order. */
  lemma {:induction false} WithoutDistributes(a: seq<ExeatRequest>, b: seq<ExeatRequest>, id: int)
    ensures Without(a + b, id) == Without(a, id) + Without(b, id)
  {
    if a == [] {
      assert a + b == b;
    } else {
      var ab := a + b;
      assert ab[0] == a[0] && ab[1..] == a[1..] + b;
      WithoutDistributes(a[1..], b, id);
    }
  }

  /** Removing a request that was just added restores the queue. */
  lemma WithoutUndoesEnqueue(queue: seq<ExeatRequest>, request: ExeatRequest)
    requires !InQueue(queue, request.id)
    ensures Without(Enqueue(queue, request), request.id) == queue
  {
    WithoutDistributes(queue, [request], request.id);
  }

  // ---------------------------------------------------------------------------
  // performSearch's result filter

  /** `results.filter(req => !queue.some(q => q.id === req.id))` */
  function FilterQueued(results: seq<ExeatRequest>, queue: seq<ExeatRequest>): (r: seq<ExeatRequest>)
    ensures forall x :: x in r <==> x in results && !InQueue(queue, x.id)
    ensures forall i :: 0 <= i < |r| ==> !InQueue(queue, r[i].id)
    ensures |r| <= |results|
  {
    if results == [] then []
    else
      var rest := FilterQueued(results[1..], queue);
      if InQueue(queue, results[0].id) then rest else [results[0]] + rest
  }

  /** The filter keeps server order. */
  lemma {:induction false} FilterQueuedDistributes(a: seq<ExeatRequest>, b: seq<ExeatRequest>, queue: seq<ExeatRequest>)
    ensures FilterQueued(a + b, queue) == FilterQueued(a, queue) + FilterQueued(b, queue)
  {
    if a == [] {
      assert a + b == b;
    } else {
      var ab := a + b;
      assert ab[0] == a[0] && ab[1..] == a[1..] + b;
      FilterQueuedDistributes(a[1..], b, queue);
    }
  }

  /** With nothing queued the server results are shown as they are. */
  lemma {:induction false} FilterQueuedEmptyQueue(results: seq<ExeatRequest>)
    ensures FilterQueued(results, []) == results
  {
    if results != [] {
      FilterQueuedEmptyQueue(results[1..]);
    }
  }

  /** Filtering against a one-entry queue is removal of that entry's id. */
  lemma {:induction false} FilterQueuedSingle(results: seq<ExeatRequest>, queued: ExeatRequest)
    ensures FilterQueued(results, [queued]) == Without(results, queued.id)
  {
    if results != [] {
      FilterQueuedSingle(results[1..], queued);
    }
  }

  /** Every shown search result is a real addition: adding it appends it. */
  lemma FilteredResultAppends(results: seq<ExeatRequest>, queue: seq<ExeatRequest>, k: nat)
    requires k < |FilterQueued(results, queue)|
    ensures Enqueue(queue, FilterQueued(results, queue)[k]) == queue + [FilterQueued(results, queue)[k]]
  {
  }

  // ---------------------------------------------------------------------------
  // The eligible-list row button

  /**
   * The row button is disabled when `queue.length >= 10 && !isInQueue(id)`:
   * a queued row can always be removed, and below the cap every row can be
   * added.
   */
  function RowEnabled(queue: seq<ExeatRequest>, id: int): (b: bool)
    ensures InQueue(queue, id) ==> b
    ensures |queue| < QueueCap ==> b
    ensures !b ==> |queue| >= QueueCap && forall i :: 0 <= i < |queue| ==> queue[i].id != id
  {
    !(|queue| >= QueueCap && !InQueue(queue, id))
  }

  /**
   * The queue after a click on a row's button: nothing when it is disabled,
   * otherwise removal of a queued row and addition of any other.
   */
  function RowClickQueue(queue: seq<ExeatRequest>, request: ExeatRequest): (r: seq<ExeatRequest>)
    ensures !RowEnabled(queue, request.id) ==> r == queue
    ensures RowEnabled(queue, request.id) && InQueue(queue, request.id) ==> r == Without(queue, request.id)
    ensures RowEnabled(queue, request.id) && !InQueue(queue, request.id) ==> r == queue + [request]
    ensures InQueue(r, request.id) <==> !InQueue(queue, request.id) && |queue| < QueueCap
    ensures |queue| <= QueueCap ==> |r| <= QueueCap
    ensures DistinctIds(queue) ==> DistinctIds(r)
  {
    if !RowEnabled(queue, request.id) then queue
    else if InQueue(queue, request.id) then
      WithoutKeepsDistinct(queue, request.id);
      Without(queue, request.id)
    else Enqueue(queue, request)
  }

  /**
   * The cap lives only on the row button: an add from the search panel or
   * the Enter key accepts a request the row button would refuse.
   */
  lemma AddIgnoresCap(queue: seq<ExeatRequest>, request: ExeatRequest)
    requires |queue| == QueueCap && !InQueue(queue, request.id)
    ensures !RowEnabled(queue, request.id)
    ensures RowClickQueue(queue, request) == queue
    ensures |Enqueue(queue, request)| == QueueCap + 1
  {
  }

  // ---------------------------------------------------------------------------
  // getInitials

  predicate IsLowerAscii(c: char) { 'a' <= c <= 'z' }

  /** `toUpperCase` on one character, restricted to ASCII letters. */
  function UpperAscii(c: char): (u: char)
    ensures !IsLowerAscii(u)
    ensures IsLowerAscii(c) ==> u as int == c as int - 32
    ensures !IsLowerAscii(c) ==> u == c
  {
    if IsLowerAscii(c) then (c as int - 32) as char else c
  }

  /** `s.toUpperCase()` for ASCII letters. */
  function ToUpperCase(s: string): (r: string)
    ensures |r| == |s|
    ensures forall i :: 0 <= i < |s| ==> r[i] == UpperAscii(s[i])
  {
    seq(|s|, i requires 0 <= i < |s| => UpperAscii(s[i]))
  }

  /** `s.charAt(0)`: the first character, or "" for an empty string. */
  function CharAt0(s: string): (r: string)
    ensures |r| <= 1 && (r == [] <==> s == [])
    ensures s != [] ==> r[0] == s[0]
  {
    if s == [] then [] else [s[0]]
  }

  /** `` `${fname.charAt(0)}${lname.charAt(0)}`.toUpperCase() `` */
  function GetInitials(fname: string, lname: string): (r: string)
    ensures |r| == (if fname == [] then 0 else 1) + (if lname == [] then 0 else 1)
    ensures fname != [] ==> r[0] == UpperAscii(fname[0])
    ensures lname != [] ==> r[|r| - 1] == UpperAscii(lname[0])
    ensures forall i :: 0 <= i < |r| ==> !IsLowerAscii(r[i])
  {
    ToUpperCase(CharAt0(fname) + CharAt0(lname))
  }

  /** Initials do not depend on the case the names were typed in. */
  lemma GetInitialsIgnoresCase(fname: string, lname: string)
    ensures GetInitials(ToUpperCase(fname), ToUpperCase(lname)) == GetInitials(fname, lname)
  {
  }

  // ---------------------------------------------------------------------------
  // "Showing X to Y of Z"

  datatype Range = Range(from: int, to: int, total: nat)

  /**
   * `(listPage - 1) * 10 + 1`, `Math.min(listPage * 10, listMeta?.total || 0)`
   * and `listMeta?.total || 0`.
   */
  function ShowingRange(listPage: int, meta: Option<PaginationMeta>): (r: Range)
    ensures r.total == if meta.Some? then meta.value.total else 0
    ensures r.from == (listPage - 1) * ListPageSize + 1
    ensures r.to <= r.total
    ensures listPage >= 1 ==> 0 <= r.to
    ensures listPage >= 1 && r.from <= r.total ==> r.from <= r.to && r.to - r.from < ListPageSize
    ensures listPage >= 1 && r.total <= listPage * ListPageSize ==> r.to == r.total
    ensures listPage >= 1 && listPage * ListPageSize <= r.total ==> r.to == listPage * ListPageSize
  {
    var total := if meta.Some? then meta.value.total else 0;
    var upper := listPage * ListPageSize;
    Range((listPage - 1) * ListPageSize + 1, if upper < total then upper else total, total)
  }
}

=== FILE: gate_events.dfy ===
/**
 * The controls of the gate-events report (app/staff/gate-events/page.tsx):
 * the header-click sort state, the per-page field, the Prev/Next/Apply
 * paging, the `student_name` column and the query parameters of the CSV
 * export link. The report data itself comes from a query hook and is a
 * parameter here.
 */
module GateEvents {
  import opened Wrappers

  datatype Order = Asc | Desc

  /** The `checked` filter: all events, only sign-ins, only sign-outs. */
  datatype CheckedFilter = All | CheckedIn | CheckedOut

  /** The wire value of the `checked` filter. */
  function CheckedValue(c: CheckedFilter): (v: string)
    ensures v in {"all", "in", "out"}
  {
    match c
    case All => "all"
    case CheckedIn => "in"
    case CheckedOut => "out"
  }

  lemma CheckedValueInjective(a: CheckedFilter, b: CheckedFilter)
    ensures CheckedValue(a) == CheckedValue(b) ==> a == b
  {
  }

  // ---------------------------------------------------------------------------
  // Sorting

  const DefaultSortKey := "security_signouts.signout_time"

  /** The column keys the switch in `onSortChange` names. */
  const SortableColumns: set<string> :=
    {"matric_no", "student_name", "signin_time", "signout_time", "departure_date", "return_date"}

  /** Every DB key a header click can sort by. */
  const SortKeys: set<string> :=
    {"exeat_requests.matric_no", "students.fname", "security_signouts.signin_time",
     "security_signouts.signout_time", "exeat_requests.departure_date", "exeat_requests.return_date"}

  /** The DB sort key for a clicked column key; any other key falls back to the sign-out time. */
  function DbKey(key: string): (dbKey: string)
    ensures dbKey in SortKeys
    ensures key !in SortableColumns ==> dbKey == DefaultSortKey
  {
    match key
    case "matric_no" => "exeat_requests.matric_no"
    case "student_name" => "students.fname"
    case "signin_time" => "security_signouts.signin_time"
    case "signout_time" => "security_signouts.signout_time"
    case "departure_date" => "exeat_requests.departure_date"
    case "return_date" => "exeat_requests.return_date"
    case _ => DefaultSortKey
  }

  /**
   * Each of the seven header columns sorts by its fixed DB key; "Actual
   * Returned Date" has no case of its own and sorts like "Checked Out".
   */
  lemma DbKeyOfHeaderColumns()
    ensures DbKey("matric_no") == "exeat_requests.matric_no"
    ensures DbKey("student_name") == "students.fname"
    ensures DbKey("signin_time") == "security_signouts.signin_time"
    ensures DbKey("signout_time") == "security_signouts.signout_time"
    ensures DbKey("departure_date") == "exeat_requests.departure_date"
    ensures DbKey("return_date") == "exeat_requests.return_date"
    ensures DbKey("actual_returned_date") == DbKey("signout_time") == DefaultSortKey
  {
  }

  /** Distinct named columns sort by distinct DB keys, and every DB key is reached by one. */
  lemma DbKeyIsBijection(a: string, b: string)
    requires a in SortableColumns && b in SortableColumns && a != b
    ensures DbKey(a) != DbKey(b)
    ensures forall k :: k in SortKeys ==> exists c :: c in SortableColumns && DbKey(c) == k
  {
    forall k | k in SortKeys
      ensures exists c :: c in SortableColumns && DbKey(c) == k
    {
      if k == "exeat_requests.matric_no" { assert DbKey("matric_no") == k; }
      else if k == "students.fname" { assert DbKey("student_name") == k; }
      else if k == "security_signouts.signin_time" { assert DbKey("signin_time") == k; }
      else if k == "security_signouts.signout_time" { assert DbKey("signout_time") == k; }
      else if k == "exeat_requests.departure_date" { assert DbKey("departure_date") == k; }
      else { assert DbKey("return_date") == k; }
    }
  }

  datatype SortState = SortState(sortBy: string, order: Order)

  function Flip(o: Order): (r: Order)
    ensures r != o
  {
    if o == Asc then Desc else Asc
  }

  /**
   * The sort after a click on column `key`: the order flips when the column
   * is already the sort key, otherwise the column becomes the key, ascending.
   */
  function SortAfterClick(s: SortState, key: string): (r: SortState)
    ensures r.sortBy == DbKey(key)
    ensures s.sortBy == DbKey(key) ==> r.order != s.order
    ensures s.sortBy != DbKey(key) ==> r.order == Asc
  {
    var dbKey := DbKey(key);
    if s.sortBy == dbKey then SortState(s.sortBy, Flip(s.order)) else SortState(dbKey, Asc)
  }

  /** Two clicks on the sorting column restore the sort; on another column they leave it descending. */
  lemma SortClickTwice(s: SortState, key: string)
    ensures s.sortBy == DbKey(key) ==> SortAfterClick(SortAfterClick(s, key), key) == s
    ensures s.sortBy != DbKey(key) ==> SortAfterClick(SortAfterClick(s, key), key) == SortState(DbKey(key), Desc)
  {
  }

  // ---------------------------------------------------------------------------
  // Per page

  const MinPerPage := 5
  const MaxPerPage := 50
  const DefaultPerPage := 20

  /** What `Number(e.target.value)` gives: an integer, or NaN. */
  datatype NumberInput = Parsed(n: int) | NotANumber

  /** `Math.max(5, Math.min(50, Number(value) || 20))` */
  function ClampPerPage(input: NumberInput): (perPage: int)
    ensures MinPerPage <= perPage <= MaxPerPage
    ensures input.NotANumber? || input == Parsed(0) ==> perPage == DefaultPerPage
    ensures input.Parsed? && input.n != 0 && MinPerPage <= input.n <= MaxPerPage ==> perPage == input.n
    ensures input.Parsed? && input.n != 0 && input.n < MinPerPage ==> perPage == MinPerPage
    ensures input.Parsed? && input.n > MaxPerPage ==> perPage == MaxPerPage
  {
    var n := if input.Parsed? && input.n != 0 then input.n else DefaultPerPage;
    var capped := if n < MaxPerPage then n else MaxPerPage;
    if capped < MinPerPage then MinPerPage else capped
  }

  /** Typing the shown value back in changes nothing. */
  lemma ClampPerPageIdempotent(input: NumberInput)
    ensures ClampPerPage(Parsed(ClampPerPage(input))) == ClampPerPage(input)
  {
  }

  // ---------------------------------------------------------------------------
  // Paging

  datatype Pagination = Pagination(currentPage: int, lastPage: int, total: int, perPage: int)

  /** `data?.pagination ?? { current_page: 1, last_page: 1, total: 0, per_page: perPage }` */
  function ResolvePagination(response: Option<Pagination>, perPage: int): (p: Pagination)
    ensures response.Some? ==> p == response.value
    ensures response.None? ==> p.currentPage == 1 && p.lastPage == 1 && p.total == 0 && p.perPage == perPage
    ensures response.None? ==> !PrevEnabled(p) && !NextEnabled(p)
  {
    if response.Some? then response.value else Pagination(1, 1, 0, perPage)
  }

  /** Prev is disabled when `current_page <= 1`. */
  function PrevEnabled(p: Pagination): (b: bool)
    ensures b <==> p.currentPage >= 2
    ensures b ==> PageBack(p.currentPage) == p.currentPage - 1
  {
    !(p.currentPage <= 1)
  }

  /** Next is disabled when `current_page >= last_page`. */
  function NextEnabled(p: Pagination): (b: bool)
    ensures b ==> p.currentPage + 1 <= p.lastPage
    ensures p.currentPage < p.lastPage ==> b
  {
    !(p.currentPage >= p.lastPage)
  }

  /** `Math.max(1, p - 1)`: one page back, never below 1. */
  function PageBack(page: int): (r: int)
    ensures r >= 1
    ensures page >= 2 ==> r == page - 1
    ensures page <= 1 ==> r == 1
  {
    if page - 1 > 1 then page - 1 else 1
  }

  // ---------------------------------------------------------------------------
  // The student_name column

  /** The characters `String.prototype.trim` removes: white space and line terminators. */
  function IsJsWhitespace(c: char): (b: bool)
    ensures c == ' ' || c == '\t' || c == '\n' || c == '\r' ==> b
    ensures '0' <= c <= '9' || 'A' <= c <= 'Z' || 'a' <= c <= 'z' ==> !b
    ensures c as int < 0x09 ==> !b
  {
    var k := c as int;
    k == 0x09 || k == 0x0A || k == 0x0B || k == 0x0C || k == 0x0D || k == 0x20 ||
    k == 0xA0 || k == 0x1680 || (0x2000 <= k <= 0x200A) || k == 0x2028 || k == 0x2029 ||
    k == 0x202F || k == 0x205F || k == 0x3000 || k == 0xFEFF
  }

  /** The number of white-space characters that start `s`. */
  function LeadingWhitespace(s: string): (k: nat)
    ensures k <= |s|
    ensures forall i :: 0 <= i < k ==> IsJsWhitespace(s[i])
    ensures k < |s| ==> !IsJsWhitespace(s[k])
  {
    if s == [] || !IsJsWhitespace(s[0]) then 0
    else
      var k := LeadingWhitespace(s[1..]);
      assert forall i :: 1 <= i < k + 1 ==> s[i] == s[1..][i - 1];
      k + 1
  }

  /** The number of white-space characters that end `s`. */
  function TrailingWhitespace(s: string): (k: nat)
    ensures k <= |s|
    ensures forall i :: |s| - k <= i < |s| ==> IsJsWhitespace(s[i])
    ensures k < |s| ==> !IsJsWhitespace(s[|s| - k - 1])
  {
    if s == [] || !IsJsWhitespace(s[|s| - 1]) then 0
    else
      var k := TrailingWhitespace(s[..|s| - 1]);
      assert forall i :: 0 <= i < |s| - 1 ==> s[i] == s[..|s| - 1][i];
      k + 1
  }

  /** The first half of `trim()`: the suffix of `s` after its leading white space. */
  function TrimStart(s: string): (r: string)
    ensures |r| == |s| - LeadingWhitespace(s)
    ensures r == s[LeadingWhitespace(s)..]
    ensures r != [] ==> !IsJsWhitespace(r[0])
  {
    s[LeadingWhitespace(s)..]
  }

  /** The second half of `trim()`: the prefix of `s` before its trailing white space. */
  function TrimEnd(s: string): (r: string)
    ensures |r| <= |s| && r == s[..|r|]
    ensures forall i :: |r| <= i < |s| ==> IsJsWhitespace(s[i])
    ensures r != [] ==> !IsJsWhitespace(r[|r| - 1])
  {
    s[..|s| - TrailingWhitespace(s)]
  }

  /**
   * `s.trim()`: the slice of `s` left after dropping white space at both
   * ends. It starts where the leading white space ends, everything after it
   * is white space, and it neither starts nor ends with white space.
   */
  function Trim(s: string): (r: string)
    ensures LeadingWhitespace(s) + |r| <= |s|
    ensures r == s[LeadingWhitespace(s)..LeadingWhitespace(s) + |r|]
    ensures forall i :: LeadingWhitespace(s) + |r| <= i < |s| ==> IsJsWhitespace(s[i])
    ensures r != [] ==> !IsJsWhitespace(r[0]) && !IsJsWhitespace(r[|r| - 1])
  {
    var front := TrimStart(s);
    var r := TrimEnd(front);
    assert r != [] ==> r[0] == front[0];
    assert forall i :: LeadingWhitespace(s) <= i < |s| ==> s[i] == front[i - LeadingWhitespace(s)];
    r
  }

  /** A string with no white space at either end is its own trim. */
  lemma TrimOfTrimmed(s: string)
    requires s == [] || (!IsJsWhitespace(s[0]) && !IsJsWhitespace(s[|s| - 1]))
    ensures Trim(s) == s
  {
  }

  /** Trimming twice is trimming once. */
  lemma TrimIdempotent(s: string)
    ensures Trim(Trim(s)) == Trim(s)
  {
    TrimOfTrimmed(Trim(s));
  }

  function OrEmpty(s: Option<string>): (r: string)
    ensures s.Some? ==> r == s.value
    ensures s.None? ==> r == ""
  {
    if s.Some? then s.value else ""
  }

  /** A lone space, the join of two missing names, trims to the empty string. */
  lemma TrimOfSpace()
    ensures Trim(" ") == ""
  {
    assert LeadingWhitespace(" ") == 1 by {
      assert LeadingWhitespace(" "[1..]) == 0;
    }
  }

  /** `` `${r.fname ?? ''} ${r.lname ?? ''}` ``: the names joined by one space, before trimming. */
  function JoinedName(fname: Option<string>, lname: Option<string>): (j: string)
    ensures |j| == |OrEmpty(fname)| + 1 + |OrEmpty(lname)|
    ensures j[|OrEmpty(fname)|] == ' '
    ensures j[..|OrEmpty(fname)|] == OrEmpty(fname) && j[|OrEmpty(fname)| + 1..] == OrEmpty(lname)
    ensures fname.None? && lname.None? ==> j == " "
  {
    OrEmpty(fname) + " " + OrEmpty(lname)
  }

  /**
   * `` `${r.fname ?? ''} ${r.lname ?? ''}`.trim() ``: the joined names less
   * their leading and trailing white space.
   */
  function StudentName(fname: Option<string>, lname: Option<string>): (name: string)
    ensures name != [] ==> !IsJsWhitespace(name[0]) && !IsJsWhitespace(name[|name| - 1])
    ensures |name| <= |OrEmpty(fname)| + 1 + |OrEmpty(lname)|
    ensures fname.None? && lname.None? ==> name == ""
    ensures LeadingWhitespace(JoinedName(fname, lname)) + |name| <= |JoinedName(fname, lname)|
    ensures name == JoinedName(fname, lname)[LeadingWhitespace(JoinedName(fname, lname))..LeadingWhitespace(JoinedName(fname, lname)) + |name|]
    ensures forall i :: LeadingWhitespace(JoinedName(fname, lname)) + |name| <= i < |JoinedName(fname, lname)| ==>
      IsJsWhitespace(JoinedName(fname, lname)[i])
  {
    var joined := JoinedName(fname, lname);
    TrimOfSpace();
    Trim(joined)
  }

  /** A name with no white space at either end, or an empty one. */
  predicate Clean(s: string)
  {
    s == [] || (!IsJsWhitespace(s[0]) && !IsJsWhitespace(s[|s| - 1]))
  }

  /** Two present, non-empty, clean names are joined by exactly one space. */
  lemma StudentNameBoth(fname: string, lname: string)
    requires fname != [] && lname != [] && Clean(fname) && Clean(lname)
    ensures StudentName(Some(fname), Some(lname)) == fname + " " + lname
  {
    TrimOfTrimmed(fname + " " + lname);
  }

  /** With one name missing, the other one, clean, stands alone: the padding space is trimmed. */
  lemma {:induction false} StudentNameOne(name: string)
    requires Clean(name)
    ensures StudentName(Some(name), None) == name
    ensures StudentName(None, Some(name)) == name
  {
    var front := name + " ";
    var back := " " + name;
    assert OrEmpty(Some(name)) + " " + OrEmpty(None) == front;
    assert OrEmpty(None) + " " + OrEmpty(Some(name)) == back;
    if name == [] {
      assert front == " " && back == " ";
      assert LeadingWhitespace(" ") == 1;
    } else {
      assert LeadingWhitespace(front) == 0;
      assert front[0..] == front && front[..|front| - 1] == name;
      assert TrailingWhitespace(front) == 1;
      assert back[1..] == name;
      assert LeadingWhitespace(back) == 1;
    }
  }

  // ---------------------------------------------------------------------------
  // The CSV export link

  /** The export URL's query parameters, in the order `searchParams.set` adds them. */
  function ExportParams(checked: CheckedFilter, search: string): (params: seq<(string, string)>)
    ensures |params| == if search == "" then 1 else 2
    ensures params[0].0 == "checked"
    ensures forall i :: 0 <= i < |params| ==> params[i].0 == "search" ==> params[i].1 != ""
  {
    [("checked", CheckedValue(checked))] + if search != "" then [("search", search)] else []
  }

  /** `url.searchParams.get(name)`: the first value under `name`. */
  function Lookup(params: seq<(string, string)>, name: string): (v: Option<string>)
    ensures v.None? <==> forall i :: 0 <= i < |params| ==> params[i].0 != name
    ensures v.Some? ==>
      exists i :: 0 <= i < |params| && params[i] == (name, v.value) &&
        (forall j :: 0 <= j < i ==> params[j].0 != name)
  {
    if params == [] then None
    else if params[0].0 == name then Some(params[0].1)
    else
      assert forall i :: 1 <= i < |params| ==> params[i] == params[1..][i - 1];
      Lookup(params[1..], name)
  }

  /** The export link always carries the filter, and carries the search text exactly when it is non-empty. */
  lemma ExportParamsRoundTrip(checked: CheckedFilter, search: string)
    ensures Lookup(ExportParams(checked, search), "checked") == Some(CheckedValue(checked))
    ensures Lookup(ExportParams(checked, search), "search") == if search == "" then None else Some(search)
  {
  }

  // ---------------------------------------------------------------------------
  // The report's control state

  class ReportControls {
    var page: int
    var perPage: int
    var search: string
    var checked: CheckedFilter
    var sortBy: string
    var order: Order

    ghost predicate Valid()
      reads this
    {
      page >= 1 && MinPerPage <= perPage <= MaxPerPage && sortBy in SortKeys
    }

    /** Page 1, 20 per page, no search, all events, newest sign-out first. */
    constructor ()
      ensures Valid()
      ensures page == 1 && perPage == DefaultPerPage && search == "" && checked == All
      ensures sortBy == DefaultSortKey && order == Desc
    {
      page := 1;
      perPage := DefaultPerPage;
      search := "";
      checked := All;
      sortBy := DefaultSortKey;
      order := Desc;
    }

    /** The pagination the page shows for a query result, defaulted when there is none. */
    function PaginationOf(response: Option<Pagination>): (p: Pagination)
      reads this
      requires Valid()
      ensures response.None? ==> p.perPage == perPage && p.total == 0
      ensures p == ResolvePagination(response, perPage)
    {
      ResolvePagination(response, perPage)
    }

    /** `onSortChange(key)`. */
    method ClickColumn(key: string)
      requires Valid()
      modifies this`sortBy, this`order
      ensures Valid()
      ensures SortState(sortBy, order) == SortAfterClick(SortState(old(sortBy), old(order)), key)
    {
      var next := SortAfterClick(SortState(sortBy, order), key);
      sortBy, order := next.sortBy, next.order;
    }

    /** The per-page field's `onChange`. */
    method ChangePerPage(input: NumberInput)
      requires Valid()
      modifies this`perPage
      ensures Valid()
      ensures perPage == ClampPerPage(input)
    {
      perPage := ClampPerPage(input);
    }

    /** "Apply" returns to the first page. */
    method Apply()
      requires Valid()
      modifies this`page
      ensures Valid() && page == 1
    {
      page := 1;
    }

    /** "Prev": enabled by the server's current page, it moves the local page back, never below 1. */
    method Prev(shown: Pagination)
      requires Valid()
      modifies this`page
      ensures Valid()
      ensures PrevEnabled(shown) ==> page == PageBack(old(page))
      ensures !PrevEnabled(shown) ==> page == old(page)
    {
      if PrevEnabled(shown) {
        page := PageBack(page);
      }
    }

    /** "Next": enabled while the server's current page is before its last page. */
    method Next(shown: Pagination)
      requires Valid()
      modifies this`page
      ensures Valid()
      ensures NextEnabled(shown) ==> page == old(page) + 1
      ensures !NextEnabled(shown) ==> page == old(page)
    {
      if NextEnabled(shown) {
        page := page + 1;
      }
    }

    method ChangeSearch(text: string)
      requires Valid()
      modifies this`search
      ensures Valid() && search == text
    {
      search := text;
    }

    method SelectChecked(filter: CheckedFilter)
      requires Valid()
      modifies this`checked
      ensures Valid() && checked == filter
    {
      checked := filter;
    }
  }
}

=== FILE: wrappers.dfy ===
/** Optional values: a field or response that may be absent. */
module Wrappers {

  datatype Option<+T> = None | Some(value: T)
}
